=== FILE: README.md ===
# Zr.Admin.NET sign-in core, modelled in Dafny

This project models the decision logic at the centre of the Zr.Admin.NET admin backend:

- the QR-code cross-device login handshake (`GenerateQrcode`, `VerifyScan`, `ScanLogin`);
- the password, phone and registration entry points and logout of `SysLoginController`, as ordered guard pipelines over the shared cache;
- the per-request authorization filter `VerifyAttribute.OnAuthorization`, with its anonymous bypass, its sentinel-gated sliding token refresh and its deny decision;
- the built-in-parameter deletion guard, the key lookup and the field-restricted update of `SysConfigController`;
- the server-URL computation and the document-inclusion rule of `SwaggerExtension`.

Every handler is one atomic, pure transition from its state and input to a new state and a reply. For the login, QR and authorization handlers the state is the shared cache. For the configuration handlers it is the parameter table `Config.Table`. The Swagger functions map a request to a document. The shared cache (`Session.Store`) is three immutable maps:

- QR handshake records by uuid;
- cached permission lists by `UserPermKEY + userId`;
- the plain `CacheHelper` entries, which hold the refresh sentinels `"token_" + UserId`.

Cache expiry is a separate environment step (`Session.Evict`). Time is an integer count of seconds.

Collaborators whose code is not part of this model are inputs of each handler: what that collaborator answers for this request. These are the captcha check, `CheckLockUser`, the login and registration services, the SMS code check and the user and role lookups. The login-family handlers also return the ordered list of guard and cache stages they reached (`Api.Stage`); the role and permission lookups that feed the token and the cache are not listed as stages. That list makes the guard order and the short-circuits part of their contracts.

`JwtUtil` is not part of this model. A minted token (`Session.Issue`) carries the caller's user and roles and expires `ttl` seconds after minting. `GlobalConstant` is not part of this model either, so `UserPermKEY` and `DevApiProxy` are parameters.

Modules: `Common` (Option, Result), `Text` (decimal ids, ordinal substring search), `Api` (reply and stage types), `Session` (claims, tokens, cache, keys), `QrLogin`, `Login`, `Verify`, `Config`, `Swagger`.

Three behaviours of the code that the model follows:

- The poll reads the record and then removes it in a second cache call, and the refresh tests the sentinel and then sets it in a second call. Neither is an atomic set-if-absent or compare-and-delete. The model runs each handler as one step and says nothing about concurrent interleavings.
- A poll of a pending record answers a null token. A poll of an absent record answers the empty string. (`QrLogin.PolledToken` keeps the two apart.)
- A refresh happens even when the token's remaining lifetime is already negative. It happens for an unauthenticated identity too, as long as claims were read, and such a request is then both refreshed and denied.

## Model

| member | source | states |
|---|---|---|
| Text.IndexOf | ZR.Admin.WebApi/Extensions/SwaggerExtension.cs:35 | the answer is the first position where the search string occurs, or none when it occurs nowhere |
| Text.ContainsIffIndexOf | ZR.Admin.WebApi/Extensions/SwaggerExtension.cs:32-35 | `Contains` holds exactly when `IndexOf` finds a position, so the slice after a successful `Contains` always has an index |
| Text.IntToDecimalInjective | ZR.ServiceCore/Filters/VerifyAttribute.cs:49 | two ids with the same decimal rendering are the same id |
| Session.KeysArePerUser | ZR.ServiceCore/Filters/VerifyAttribute.cs:49 | distinct user ids never share a sentinel key or a permission-cache key |
| QrLogin.GenerateQrcode | ZR.Admin.WebApi/Controllers/System/SysLoginController.cs:196-211 | the uuid's record becomes a pending record carrying the fresh state and no token; every other record and the rest of the cache are unchanged; the reply has status 1 |
| QrLogin.VerifyScan | ZR.Admin.WebApi/Controllers/System/SysLoginController.cs:220-236 | null body: the null-reference exception, cache unchanged; absent uuid: -1, empty token, cache unchanged; record without success status: 0, cache unchanged; success record: 2 with its token, and that record alone is removed |
| QrLogin.ScanLogin | ZR.Admin.WebApi/Controllers/System/SysLoginController.cs:246-264 | null body: "Scan failed"; locked caller: the lockout exception; absent record: FAIL "QR code has expired"; every failure leaves the cache unchanged; otherwise the record is replaced by a success record holding a token for the scanner, and the reply is 1 |
| QrLogin.GenerateThenPollIsPending | ZR.Admin.WebApi/Controllers/System/SysLoginController.cs:198-228 | a poll right after generation answers 0 with a null token |
| QrLogin.RepeatedPollsStayPending | ZR.Admin.WebApi/Controllers/System/SysLoginController.cs:226-232 | any number of polls of a pending record leave the cache unchanged and keep answering 0 |
| QrLogin.HandshakeScenario | ZR.Admin.WebApi/Controllers/System/SysLoginController.cs:196-264 | generate, poll, confirm, poll, poll answers 0, 1, 2 with the minted token, then -1, and the permission cache and sentinels are untouched |
| QrLogin.ExpiredHandshakeIsGone | ZR.Admin.WebApi/Controllers/System/SysLoginController.cs:254-263 | after the record expires, confirming fails with "QR code has expired" and polling answers -1 |
| QrLogin.DeliveryAtMostOnce | ZR.Admin.WebApi/Controllers/System/SysLoginController.cs:227-259 | under any sequence of generates, polls, confirms and expiries, the polls answering 2 for a uuid are at most its successful confirmations plus one for a record already confirmed at the start |
| QrLogin.DeliveryBoundedByConfirmations | ZR.Admin.WebApi/Controllers/System/SysLoginController.cs:227-259 | starting with no confirmed record, each minted token is delivered at most once |
| Login.CaptchaSwitch | ZR.Admin.WebApi/Controllers/System/SysLoginController.cs:58-59 | a missing captcha switch means the captcha is enforced; it is off only when the first row with that key says exactly "off"; a missing registration switch means registration is closed |
| Login.Login | ZR.Admin.WebApi/Controllers/System/SysLoginController.cs:54-75 | null body throws and consults nothing; stages run in the order config, captcha (only when enforced), lock, credentials, permission write, minting, and stop at the first failure; a failed captcha returns CAPTCHA_ERROR before the lock or credential check; a locked caller gets the lockout exception with the stages ending at the lock check; a failed credential check gets its exception with the stages ending there; success exactly when every guard passes, and then the permissions are cached under `UserPermKEY + userId` before the token is minted; every failure leaves the cache unchanged |
| Login.LogOut | ZR.Admin.WebApi/Controllers/System/SysLoginController.cs:83-90 | removes exactly the caller's permission key and nothing else, and returns the caller's name and id |
| Login.LoginThenLogout | ZR.Admin.WebApi/Controllers/System/SysLoginController.cs:73-88 | after a login and the same user's logout there is no cached permission list for that user, and every other user's entry is as before |
| Login.LogoutIsPerUser | ZR.Admin.WebApi/Controllers/System/SysLoginController.cs:88 | one user's logout keeps another user's cached permissions |
| Login.PhoneLoginThenLogout | ZR.Admin.WebApi/Controllers/System/SysLoginController.cs:337 | after a phone login and the same user's logout there is no cached permission list for that user, and other users' keys are present exactly as before |
| Login.PhoneLoginMatchesLogin | ZR.Admin.WebApi/Controllers/System/SysLoginController.cs:330-338 | once past their guards, a phone login and a password login of the same user leave the same cache and mint the same token |
| Login.RegisterCaptchaGateMatchesLogin | ZR.Admin.WebApi/Controllers/System/SysLoginController.cs:173-179 | with registration open, `Register` reaches the user service exactly when a login with the same captcha answer reaches the lockout check |
| Login.PhoneLogin | ZR.Admin.WebApi/Controllers/System/SysLoginController.cs:318-339 | stages run SMS code, phone lookup, lock of the phone's owner, login service, permission write, minting, stopping at the first failure; the reply and stages for a wrong code, an unknown phone, a locked owner and a failed login service; success exactly when every guard passes, with the same cache write as `Login` |
| Login.RegisterPastSwitch | ZR.Admin.WebApi/Controllers/System/SysLoginController.cs:173-185 | once registration is open, the captcha is checked before the user service: a failing enforced captcha answers CAPTCHA_ERROR with exactly the switch and captcha stages; otherwise the stages are the switch, the captcha stages and the user service, an exception from the user service propagates, a non-positive id answers the CUSTOM_ERROR "Registration failed" reply, and the user is returned exactly when it got a positive id |
| Login.Register | ZR.Admin.WebApi/Controllers/System/SysLoginController.cs:166-185 | refused unless the registration switch says exactly "true", checked before the captcha; CAPTCHA_ERROR exactly when registration is open, the captcha is enforced and fails; the user service runs only past both guards; each outcome's exact stage list is pinned; past the guards, a user-service exception propagates, a non-positive id answers the CUSTOM_ERROR "Registration failed" reply, and the user is returned exactly when it got a positive id; the cache is never touched |
| Verify.OnAuthorization | ZR.ServiceCore/Filters/VerifyAttribute.cs:25-70 | anonymous actions pass untouched; a token is minted exactly when there are claims, the user's sentinel is absent and under 300 seconds remain; minting sets exactly the caller's sentinel, and the headers it adds are exactly the expose header (only when the `os` header is present) followed by one `X-Refresh-Token` carrying the new token; without a refresh the cache is unchanged and no header is added; the expose header appears exactly when a refresh happens and the `os` header is present; DENY exactly when there are no claims or the identity is unauthenticated; only the caller's sentinel can be added |
| Verify.RefreshNotRepeated | ZR.ServiceCore/Filters/VerifyAttribute.cs:49-54 | after a refresh, a second request of the same user does not refresh |
| Verify.SentinelIsPerUser | ZR.ServiceCore/Filters/VerifyAttribute.cs:49-50 | a request of user A never changes whether user B's request refreshes |
| Verify.RefreshNeverDenies | ZR.ServiceCore/Filters/VerifyAttribute.cs:50-69 | with claims and an authenticated identity the request is not denied, refreshed or not |
| Verify.AtMostOneRefreshPerWindow | ZR.ServiceCore/Filters/VerifyAttribute.cs:49-54 | while a user's sentinel is not evicted, any sequence of requests mints at most one token for that user, and none if the sentinel is already set |
| Verify.ScanLoginEndpoint | ZR.Admin.WebApi/Controllers/System/SysLoginController.cs:245-264 | with the filter in front of `ScanLogin`, DENY exactly when the request has no claims or is unauthenticated, and then the handshake records are unchanged; an authenticated request gets past the filter, and its cache and reply are exactly those of `ScanLogin` on the filter's cache, with the filter's headers; a success stores a token for the caller |
| Verify.AnySignedInUserCanConfirm | ZR.Admin.WebApi/Controllers/System/SysLoginController.cs:253-261 | any signed-in, unlocked caller can confirm any live handshake: the confirmation is bound to the uuid alone |
| Config.GetSysConfigByKey | ZR.ServiceCore/Services/SysConfigService.cs:14-17 | none exactly when no row has the key; otherwise the first row with the key |
| Config.GetConfigKey | ZR.Admin.WebApi/Controllers/System/SysConfigController.cs:69-73 | null exactly when no row has the key; otherwise the value of the first row with the key |
| Config.UpdateSysConfig | ZR.Admin.WebApi/Controllers/System/SysConfigController.cs:110-130 | null body throws and changes nothing; only rows with the posted id change, and they get the posted name, key, value, type and remark plus the updater and time; id, creator and creation time are never changed; the reply is the number of matching rows |
| Config.CountProtected | ZR.Admin.WebApi/Controllers/System/SysConfigController.cs:143 | the count is positive exactly when some built-in row has a listed id |
| Config.RemoveIds | ZR.Admin.WebApi/Controllers/System/SysConfigController.cs:145 | the number of rows removed is the number of listed rows, and every unlisted row keeps its multiplicity |
| Config.DeleteSysConfig | ZR.Admin.WebApi/Controllers/System/SysConfigController.cs:139-148 | an empty id list or one naming a built-in row is refused and nothing is deleted; otherwise the listed rows are removed, the other rows keep their multiplicities, and the reply is the number of listed rows; built-in rows are never removed |
| Config.BuiltinsSurviveDeletions | ZR.Admin.WebApi/Controllers/System/SysConfigController.cs:143-145 | a built-in row survives any sequence of deletions |
| Swagger.ServerUrl | ZR.Admin.WebApi/Extensions/SwaggerExtension.cs:26-36 | without the proxy path in the Referer the URL is `scheme://host`; with it, the URL is a prefix of the Referer ending just before the last character of the first occurrence, so it ends with the proxy path minus its last character; an empty proxy path throws |
| Swagger.PreSerialize | ZR.Admin.WebApi/Extensions/SwaggerExtension.cs:23-46 | the document keeps its name and its server list becomes exactly one entry holding the computed server URL |
| Swagger.DocsContaining | ZR.Admin.WebApi/Extensions/SwaggerExtension.cs:138-149 | the result holds exactly the listed documents whose inclusion rule accepts the API |
| Swagger.DocumentOfEachApi | ZR.Admin.WebApi/Extensions/SwaggerExtension.cs:138-149 | of the declared documents, an ungrouped API lands in "v1" only, a "sys" or "article" API in that document only, and an API of any other group, "v1" included, in none |
| Swagger.ExactlyOneDocument | ZR.Admin.WebApi/Extensions/SwaggerExtension.cs:66-149 | an API is in exactly one declared document if and only if it is ungrouped or grouped under "sys" or "article" |

## Left out

- Captcha generation and validation, `CheckLockUser` and its lockout counter, the SMS code check and the login, register and user services are not part of this model. Each is an input per request. The model assumes neither single-use captchas nor any lockout threshold.
- `JwtUtil` signing and validation are not part of this model. A token is identified with its claims. Its expiry is the minting time plus a lifetime parameter.
- `CacheService` and `CacheHelper` internals are not part of this model: key prefixes, the TTL values and the sentinel's one-unit lifetime. The three cache regions are separate maps, and expiry is the explicit `Evict` step.
- Concurrency: each handler is one atomic step. The source's check-then-act pairs are not atomic, and no claim is made about interleavings.
- `TimeSpan.TotalMinutes < 5` is a double comparison. The model compares whole seconds, `remaining < 300`.
- The culture-sensitive comparison of `IndexOf(..., InvariantCulture)` is modelled as the ordinal comparison `Contains` uses. The two can disagree on non-ASCII and control characters (canonically equivalent sequences, ignorable characters, "\r\n" kept whole); on printable-ASCII Referers they agree.
- Logging, client IP and geolocation, the random welcome message, and the `deviceId`/`codeContent` payload beyond echoing it back.
- `GetUserInfo`, `GetRouters`, `GetAppRouters`, `CaptchaImage`, `CheckMobile` and `PhoneBind`: lookups or SMS bookkeeping without cache decisions.
- `QuerySysConfig`, `GetSysConfig` and `AddSysConfig`: ORM queries and an insert with no guard logic. `Tools.SpitIntArrary` (id-list parsing) is replaced by an already-parsed id list.
- Key and type matches in the parameter queries (`ConfigKey == key`, `ConfigType == "Y"`) are SQL `=` comparisons, and the database runs them under its collation; the SQL Server and MySQL defaults ignore case and trailing spaces. `Config.FirstWithKeyFrom`, `Config.IsProtected` and the switches built on them compare strings exactly, so case and trailing spaces count in the model: a row keyed "SYS.ACCOUNT.CAPTCHAONOFF" or typed "y" is not matched here, though such a row may be matched in the database.
- Register: a null registration body is not modelled. The handler dereferences it only past the registration switch.
- Swagger UI endpoint registration, XML comment loading and security definitions: configuration only.
- Startup and DI wiring, Quartz tasks, the repository layer and the article controller.

=== FILE: api.dfy ===
/** What a controller action or filter hands back to the framework. */
module Api {

  /** The `ResultCode` values the core uses. `DefaultError` is the code that
      `ApiResult.Error(msg)` picks when none is given; its numeric value is
      not part of this model. */
  datatype ResultCode = Fail | CustomError | CaptchaError | Deny | DefaultError

  /** `SUCCESS(data)`, `ToResponse(code, msg)`, or a `CustomException` thrown
      out of the action and turned into an error reply by the framework. */
  datatype Response<+P> =
    | Ok(data: P)
    | Error(code: ResultCode, msg: string)
    | Raised(msg: string)

  /** A collaborator a login-family handler consults, in the order it
      consults them. Each handler reports its stages so that the guard order
      and the short-circuits can be stated. */
  datatype Stage =
    | ReadConfig(key: string)   // sysConfigService.GetSysConfigByKey
    | ValidateCaptcha           // SecurityCodeHelper.Validate
    | CheckSmsCode              // CacheService.CheckPhoneCode
    | LookupPhone               // sysUserService.GetFirst by phone number
    | CheckLock(userName: string) // sysLoginService.CheckLockUser
    | CheckCredentials          // sysLoginService.Login / PhoneLogin
    | RegisterUser              // sysUserService.Register
    | WritePerms(key: string)   // CacheService.SetUserPerms
    | RemovePerms(key: string)  // CacheService.RemoveUserPerms
    | MintToken                 // JwtUtil.GenerateJwtToken
}

=== FILE: common.dfy ===
/** Failure-compatible wrappers shared by every module of the model. */
module Common {

  /** A value that may be absent: the model's stand-in for a C# null. */
  datatype Option<+T> = None | Some(value: T)

  /** The outcome of a collaborator that either returns a value or throws
      an exception carrying a message. */
  datatype Result<+T> = Success(value: T) | Failure(error: string)
}

=== FILE: config.dfy ===
/** The parameter-configuration table and the rules of `SysConfigController`
    over it: key lookup, the field-restricted update and the guarded
    deletion that protects built-in parameters. */
module Config {
  import opened Common
  import opened Api

  /** One row of `sys_config` (`SysConfig` with its `SysBase` audit fields);
      times are seconds. `configType` is "Y" for a built-in parameter. */
  datatype SysConfig = SysConfig(
    configId: int,
    configName: string,
    configKey: string,
    configValue: string,
    configType: string,
    createBy: string,
    createTime: int,
    updateBy: string,
    updateTime: Option<int>,
    remark: string)

  /** The table, in the order the database returns its rows. */
  type Table = seq<SysConfig>

  /** Position of the first row at or after `from` whose key is `key`. */
  function FirstWithKeyFrom(t: Table, key: string, from: nat): (r: Option<nat>)
    ensures r.Some? ==> from <= r.value < |t| && t[r.value].configKey == key
    ensures r.Some? ==> forall j :: from <= j < r.value ==> t[j].configKey != key
    ensures r.None? ==> forall j :: from <= j < |t| ==> t[j].configKey != key
    decreases |t| - from
  {
    if from >= |t| then None
    else if t[from].configKey == key then Some(from)
    else FirstWithKeyFrom(t, key, from + 1)
  }

  /** `SysConfigService.GetSysConfigByKey`: the first row with `key`, or
      null. */
  function GetSysConfigByKey(t: Table, key: string): (r: Option<SysConfig>)
    ensures r.None? <==> forall j :: 0 <= j < |t| ==> t[j].configKey != key
    ensures r.Some? ==> exists i :: (0 <= i < |t| && t[i] == r.value && t[i].configKey == key
      && forall j :: 0 <= j < i ==> t[j].configKey != key)
  {
    match FirstWithKeyFrom(t, key, 0)
    case None => None
    case Some(i) => Some(t[i])
  }

  /** `GetConfigKey`: the value of the first row with `key`, or null when
      no row has that key. */
  function GetConfigKey(t: Table, key: string): (r: Response<Option<string>>)
    ensures r.Ok?
    ensures r.data.None? <==> forall j :: 0 <= j < |t| ==> t[j].configKey != key
    ensures r.data.Some? ==> exists i :: (0 <= i < |t| && t[i].configKey == key && t[i].configValue == r.data.value
      && forall j :: 0 <= j < i ==> t[j].configKey != key)
  {
    var row := GetSysConfigByKey(t, key);
    Ok(if row.Some? then Some(row.value.configValue) else None)
  }

  /** The fields a client posts to update a parameter (`SysConfigDto`). */
  datatype ConfigDto = ConfigDto(
    configId: int, configName: string, configKey: string, configValue: string, configType: string, remark: string)

  /** The columns `UpdateSysConfig` sets on a matching row; the id and the
      creation audit fields are not among them. */
  function Apply(row: SysConfig, dto: ConfigDto, updateBy: string, now: int): SysConfig
  {
    row.(configName := dto.configName, configKey := dto.configKey, configValue := dto.configValue,
         configType := dto.configType, updateBy := updateBy, updateTime := Some(now), remark := dto.remark)
  }

  /** Number of rows whose id is `id`. */
  function CountId(t: Table, id: int): (n: nat)
    ensures n <= |t|
    ensures n == 0 <==> forall j :: 0 <= j < |t| ==> t[j].configId != id
  {
    if t == [] then 0 else (if t[0].configId == id then 1 else 0) + CountId(t[1..], id)
  }

  /** Every row whose id matches gets the posted columns. */
  function UpdateRows(t: Table, dto: ConfigDto, updateBy: string, now: int): (r: Table)
    ensures |r| == |t|
    ensures forall j :: 0 <= j < |t| && t[j].configId == dto.configId ==> r[j] == Apply(t[j], dto, updateBy, now)
    ensures forall j :: 0 <= j < |t| && t[j].configId != dto.configId ==> r[j] == t[j]
  {
    if t == [] then []
    else
      var head := if t[0].configId == dto.configId then Apply(t[0], dto, updateBy, now) else t[0];
      [head] + UpdateRows(t[1..], dto, updateBy, now)
  }

  /** `UpdateSysConfig`: a null body throws; otherwise the rows with the
      posted id take the posted name, key, value, type and remark and the
      caller/time as updater, and the reply is the number of rows changed.
      `updateBy` and `now` are what `ToUpdate` fills in. */
  function UpdateSysConfig(t: Table, parm: Option<ConfigDto>, updateBy: string, now: int): (r: (Table, Response<nat>))
    ensures parm.None? ==> r == (t, Raised("Request entity cannot be empty"))
    ensures parm.Some? ==> r.1 == Ok(CountId(t, parm.value.configId))
    ensures |r.0| == |t|
    ensures forall j :: 0 <= j < |t| ==>
      && r.0[j].configId == t[j].configId
      && r.0[j].createBy == t[j].createBy
      && r.0[j].createTime == t[j].createTime
    ensures forall j :: 0 <= j < |t| && (parm.None? || t[j].configId != parm.value.configId) ==> r.0[j] == t[j]
    ensures parm.Some? ==> forall j :: 0 <= j < |t| && t[j].configId == parm.value.configId ==>
      && r.0[j].configName == parm.value.configName && r.0[j].configKey == parm.value.configKey
      && r.0[j].configValue == parm.value.configValue && r.0[j].configType == parm.value.configType
      && r.0[j].remark == parm.value.remark && r.0[j].updateBy == updateBy && r.0[j].updateTime == Some(now)
  {
    if parm.None? then (t, Raised("Request entity cannot be empty"))
    else (UpdateRows(t, parm.value, updateBy, now), Ok(CountId(t, parm.value.configId)))
  }

  /** A built-in row whose id is among `ids`. */
  predicate IsProtected(c: SysConfig, ids: seq<int>)
  {
    c.configType == "Y" && c.configId in ids
  }

  /** `Count(s => s.ConfigType == "Y" && idsArr.Contains(s.ConfigId))`. */
  function CountProtected(t: Table, ids: seq<int>): (n: nat)
    ensures n <= |t|
    ensures n > 0 <==> exists j :: 0 <= j < |t| && IsProtected(t[j], ids)
  {
    if t == [] then 0
    else
      assert forall j :: 1 <= j < |t| ==> t[j] == t[1..][j - 1];
      (if IsProtected(t[0], ids) then 1 else 0) + CountProtected(t[1..], ids)
  }

  /** Number of rows whose id is in `ids`: the rows a delete by primary
      key removes. */
  function CountListed(t: Table, ids: seq<int>): (n: nat)
    ensures n <= |t|
    ensures n == 0 <==> forall j :: 0 <= j < |t| ==> t[j].configId !in ids
  {
    if t == [] then 0
    else
      assert forall j :: 1 <= j < |t| ==> t[j] == t[1..][j - 1];
      (if t[0].configId in ids then 1 else 0) + CountListed(t[1..], ids)
  }

  /** The table without the rows whose id is in `ids`, in the same order. */
  function RemoveIds(t: Table, ids: seq<int>): (r: Table)
    ensures |t| - |r| == CountListed(t, ids)
    ensures forall c :: multiset(r)[c] == if c.configId in ids then 0 else multiset(t)[c]
    ensures forall c :: c in r <==> c in t && c.configId !in ids
  {
    if t == [] then []
    else
      assert t == [t[0]] + t[1..];
      if t[0].configId in ids then RemoveIds(t[1..], ids)
      else [t[0]] + RemoveIds(t[1..], ids)
  }

  /** `DeleteSysConfig`, given the already split id list: an empty list or
      one naming a built-in row is refused and nothing is deleted;
      otherwise exactly the listed rows go and the reply counts them. */
  function DeleteSysConfig(t: Table, ids: seq<int>): (r: (Table, Response<nat>))
    ensures |ids| == 0 ==> r == (t, Error(DefaultError, "Deletion failed. Id cannot be empty"))
    ensures |ids| > 0 && (exists j :: 0 <= j < |t| && IsProtected(t[j], ids)) ==>
      r == (t, Error(DefaultError, "Deletion failed. System built-in parameters cannot be deleted!"))
    ensures r.1.Ok? <==> |ids| > 0 && forall j :: 0 <= j < |t| ==> !IsProtected(t[j], ids)
    ensures r.1.Ok? ==> r.1.data == CountListed(t, ids) == |t| - |r.0|
    ensures r.1.Ok? ==> forall c :: multiset(r.0)[c] == if c.configId in ids then 0 else multiset(t)[c]
    ensures r.1.Ok? ==> forall c :: c in r.0 <==> c in t && c.configId !in ids
    ensures forall c :: c in t && c.configType == "Y" ==> c in r.0
    ensures forall c :: c in r.0 ==> c in t
  {
    if |ids| <= 0 then (t, Response<nat>.Error(DefaultError, "Deletion failed. Id cannot be empty"))
    else if CountProtected(t, ids) > 0 then
      (t, Response<nat>.Error(DefaultError, "Deletion failed. System built-in parameters cannot be deleted!"))
    else
      var rest := RemoveIds(t, ids);
      (rest, Ok(|t| - |rest|))
  }

  /** Built-in parameters survive any sequence of deletions. */
  lemma {:induction false} BuiltinsSurviveDeletions(t: Table, batches: seq<seq<int>>, c: SysConfig)
    requires c in t && c.configType == "Y"
    ensures c in DeleteAll(t, batches)
    decreases |batches|
  {
    if batches != [] {
      BuiltinsSurviveDeletions(DeleteSysConfig(t, batches[0]).0, batches[1..], c);
    }
  }

  /** The table after a sequence of `DeleteSysConfig` calls. */
  function DeleteAll(t: Table, batches: seq<seq<int>>): Table
    decreases |batches|
  {
    if batches == [] then t else DeleteAll(DeleteSysConfig(t, batches[0]).0, batches[1..])
  }
}

=== FILE: login.dfy ===
/** The password, phone and registration entry points of
    `SysLoginController` and logout, as ordered guard pipelines. Every
    collaborator the source calls (captcha check, lockout check, credential
    check, SMS code check, user registration) is an input: what it would
    answer for this request. Each handler reports the stages it reached,
    so the guard order and the short-circuits are part of its contract. */
module Login {
  import opened Common
  import opened Api
  import opened Session
  import opened Config

  const CaptchaKey: string := "sys.account.captchaOnOff"
  const RegisterKey: string := "sys.account.register"

  /** A signed-in or registered user as the user service returns it. */
  datatype User = User(userId: int, userName: string)

  /** A handler's effect: the new cache, the reply, and the collaborator
      stages consulted, in order. */
  datatype Handled<+P> = Handled(store: Store, response: Response<P>, stages: seq<Stage>)

  /** `sysConfig?.ConfigValue != "off"`: the captcha is checked unless the
      switch exists and says exactly "off". */
  predicate CaptchaEnforced(t: Table)
  {
    var c := GetSysConfigByKey(t, CaptchaKey);
    c.None? || c.value.configValue != "off"
  }

  /** `config?.ConfigValue == "true"`: registration is open only when the
      switch exists and says exactly "true". */
  predicate RegisterEnabled(t: Table)
  {
    var c := GetSysConfigByKey(t, RegisterKey);
    c.Some? && c.value.configValue == "true"
  }

  /** The switches read from the table in the sense the handlers use them. */
  lemma CaptchaSwitch(t: Table)
    ensures (forall j :: 0 <= j < |t| ==> t[j].configKey != CaptchaKey) ==> CaptchaEnforced(t)
    ensures !CaptchaEnforced(t) <==> exists i :: (0 <= i < |t| && t[i].configKey == CaptchaKey
      && t[i].configValue == "off" && forall j :: 0 <= j < i ==> t[j].configKey != CaptchaKey)
    ensures (forall j :: 0 <= j < |t| ==> t[j].configKey != RegisterKey) ==> !RegisterEnabled(t)
  {
  }

  /** The posted login form (`LoginBodyDto`). */
  datatype LoginBody = LoginBody(username: string, password: string, uuid: string, code: string)

  /** What the collaborators of one login answer: the captcha check, the
      lockout check (the exception it throws, if any), the credential check
      (the user, or the exception), the user's roles and permissions, and
      the clock and token lifetime used for minting. */
  datatype LoginEnv = LoginEnv(
    captchaValid: bool,
    lockError: Option<string>,
    signIn: Result<User>,
    roleIds: seq<int>,
    permissions: seq<string>,
    now: int,
    ttl: nat)

  /** The claims a login builds for `u` (`new TokenModel(user, roles)`);
      minting sets the expiry. */
  function ClaimsOf(u: User, roleIds: seq<int>): Claims
  {
    Claims(u.userId, u.userName, roleIds, 0)
  }

  /** The captcha gate shared by `Login` and `Register`: read the switch,
      then validate only while the captcha is enforced. */
  function CaptchaStages(enforced: bool): seq<Stage>
  {
    [ReadConfig(CaptchaKey)] + (if enforced then [ValidateCaptcha] else [])
  }

  /** Every stage of a password login, in the order the source runs them. */
  function LoginPipeline(enforced: bool, username: string, permKey: string): seq<Stage>
  {
    CaptchaStages(enforced) + [CheckLock(username), CheckCredentials, WritePerms(permKey), MintToken]
  }

  /** The tail both logins share once their own guards pass, after the
      stages `prior`: the lockout check of `userName`, the login service,
      then the permission-cache write and the minting. */
  function SignIn(s: Store, prior: seq<Stage>, userName: string, lockError: Option<string>, signIn: Result<User>,
                  roleIds: seq<int>, permissions: seq<string>, now: int, ttl: nat, permPrefix: string): (h: Handled<Token>)
    ensures lockError.Some? ==> h == Handled(s, Raised(lockError.value), prior + [CheckLock(userName)])
    ensures lockError.None? && signIn.Failure? ==>
      h == Handled(s, Raised(signIn.error), prior + [CheckLock(userName), CheckCredentials])
    ensures lockError.None? && signIn.Success? ==>
      var key := PermKey(permPrefix, signIn.value.userId);
      && h.store == s.(perms := s.perms[key := permissions])
      && h.response == Ok(Issue(ClaimsOf(signIn.value, roleIds), now, ttl))
      && h.stages == prior + [CheckLock(userName), CheckCredentials, WritePerms(key), MintToken]
  {
    var locked := prior + [CheckLock(userName)];
    if lockError.Some? then Handled(s, Raised(lockError.value), locked)
    else if signIn.Failure? then Handled(s, Raised(signIn.error), locked + [CheckCredentials])
    else
      var key := PermKey(permPrefix, signIn.value.userId);
      Handled(s.(perms := s.perms[key := permissions]), Ok(Issue(ClaimsOf(signIn.value, roleIds), now, ttl)),
              locked + [CheckCredentials, WritePerms(key), MintToken])
  }

  /** `Login`. The reply is the token; the user's permission list is cached
      under `UserPermKEY + userId` just before it is minted. */
  function Login(s: Store, t: Table, body: Option<LoginBody>, env: LoginEnv, permPrefix: string): (h: Handled<Token>)
    ensures body.None? ==> h == Handled(s, Raised("Request parameter error"), [])
    ensures body.Some? ==> h.stages <= LoginPipeline(CaptchaEnforced(t),
      body.value.username, if env.signIn.Success? then PermKey(permPrefix, env.signIn.value.userId) else "")
    ensures body.Some? ==> (ValidateCaptcha in h.stages <==> CaptchaEnforced(t))
    ensures h.response.Error? <==> body.Some? && CaptchaEnforced(t) && !env.captchaValid
    ensures h.response.Error? ==> (h.response == Error(CaptchaError, "Incorrect captcha") && h.store == s
      && h.stages == CaptchaStages(true)
      && (forall u :: CheckLock(u) !in h.stages) && CheckCredentials !in h.stages)
    ensures body.Some? && (!CaptchaEnforced(t) || env.captchaValid) && env.lockError.Some? ==>
      && h.response == Raised(env.lockError.value)
      && h.stages == CaptchaStages(CaptchaEnforced(t)) + [CheckLock(body.value.username)]
    ensures body.Some? && (!CaptchaEnforced(t) || env.captchaValid) && env.lockError.None? && env.signIn.Failure? ==>
      && h.response == Raised(env.signIn.error)
      && h.stages == CaptchaStages(CaptchaEnforced(t)) + [CheckLock(body.value.username), CheckCredentials]
    ensures h.response.Ok? <==> (body.Some? && (!CaptchaEnforced(t) || env.captchaValid)
      && env.lockError.None? && env.signIn.Success?)
    ensures h.response.Ok? ==>
      var u := env.signIn.value;
      && h.response.data == Issue(ClaimsOf(u, env.roleIds), env.now, env.ttl)
      && h.store == s.(perms := s.perms[PermKey(permPrefix, u.userId) := env.permissions])
      && h.stages == LoginPipeline(CaptchaEnforced(t), body.value.username, PermKey(permPrefix, u.userId))
    ensures !h.response.Ok? ==> h.store == s
  {
    if body.None? then Handled(s, Raised("Request parameter error"), [])
    else
      var enforced := CaptchaEnforced(t);
      var captcha := CaptchaStages(enforced);
      if enforced && !env.captchaValid then Handled(s, Error(CaptchaError, "Incorrect captcha"), captcha)
      else
        SignIn(s, captcha, body.value.username, env.lockError, env.signIn, env.roleIds, env.permissions,
               env.now, env.ttl, permPrefix)
  }

  /** `LogOut`: drops the caller's cached permission list and nothing
      else. `userId` and `name` are what `GetUId` and `GetName` read from
      the request. */
  function LogOut(s: Store, userId: int, name: string, permPrefix: string): (h: Handled<User>)
    ensures h.response == Ok(User(userId, name))
    ensures PermKey(permPrefix, userId) !in h.store.perms
    ensures forall k :: k != PermKey(permPrefix, userId) ==>
      (k in h.store.perms <==> k in s.perms) && (k in s.perms ==> h.store.perms[k] == s.perms[k])
    ensures h.store.scans == s.scans && h.store.flags == s.flags
    ensures h.stages == [RemovePerms(PermKey(permPrefix, userId))]
  {
    var key := PermKey(permPrefix, userId);
    Handled(s.(perms := s.perms - {key}), Ok(User(userId, name)), [RemovePerms(key)])
  }

  /** After a login and the same user's logout, the permission cache holds
      no entry for that user (a later check must recompute), and every
      other user's entry is as it was before the login. */
  lemma LoginThenLogout(s: Store, t: Table, body: LoginBody, env: LoginEnv, permPrefix: string, name: string)
    requires env.signIn.Success?
    ensures
      var u := env.signIn.value;
      var s2 := LogOut(Login(s, t, Some(body), env, permPrefix).store, u.userId, name, permPrefix).store;
      && PermKey(permPrefix, u.userId) !in s2.perms
      && (forall v :: v != u.userId ==>
            (PermKey(permPrefix, v) in s2.perms <==> PermKey(permPrefix, v) in s.perms)
            && (PermKey(permPrefix, v) in s.perms ==> s2.perms[PermKey(permPrefix, v)] == s.perms[PermKey(permPrefix, v)]))
  {
    var u := env.signIn.value;
    forall v | v != u.userId
      ensures PermKey(permPrefix, v) != PermKey(permPrefix, u.userId)
    {
      KeysArePerUser(permPrefix, v, u.userId);
    }
  }

  /** One user's logout never touches another user's cached permissions. */
  lemma LogoutIsPerUser(s: Store, a: int, b: int, name: string, permPrefix: string)
    requires a != b && PermKey(permPrefix, b) in s.perms
    ensures
      var s2 := LogOut(s, a, name, permPrefix).store;
      PermKey(permPrefix, b) in s2.perms && s2.perms[PermKey(permPrefix, b)] == s.perms[PermKey(permPrefix, b)]
  {
    KeysArePerUser(permPrefix, a, b);
  }

  /** The posted phone login form (`PhoneLoginDto`). */
  datatype PhoneLoginBody = PhoneLoginBody(phoneNum: string, phoneCode: string)

  /** What the collaborators of one phone login answer: the SMS code check,
      the owner of the phone number (if any), the lockout check, the login
      service, roles and permissions, clock and token lifetime. */
  datatype PhoneEnv = PhoneEnv(
    codeValid: bool,
    owner: Option<User>,
    lockError: Option<string>,
    signIn: Result<User>,
    roleIds: seq<int>,
    permissions: seq<string>,
    now: int,
    ttl: nat)

  /** Every stage of a phone login, in source order. */
  function PhonePipeline(ownerName: string, permKey: string): seq<Stage>
  {
    [CheckSmsCode, LookupPhone, CheckLock(ownerName), CheckCredentials, WritePerms(permKey), MintToken]
  }

  /** `PhoneLogin`: SMS code, then the phone number's owner, then the
      owner's lock state, then the login service; then the same cache write
      and minting as `Login`. */
  function PhoneLogin(s: Store, body: Option<PhoneLoginBody>, env: PhoneEnv, permPrefix: string): (h: Handled<Token>)
    ensures body.None? ==> h == Handled(s, Raised("Request parameter error"), [])
    ensures body.Some? ==> h.stages <= PhonePipeline(
      if env.owner.Some? then env.owner.value.userName else "",
      if env.signIn.Success? then PermKey(permPrefix, env.signIn.value.userId) else "")
    ensures body.Some? && !env.codeValid ==>
      h == Handled(s, Error(CustomError, "Incorrect SMS verification code"), [CheckSmsCode])
    ensures body.Some? && env.codeValid && env.owner.None? ==>
      h == Handled(s, Raised("This phone number does not exist"), [CheckSmsCode, LookupPhone])
    ensures body.Some? && env.codeValid && env.owner.Some? && env.lockError.Some? ==>
      && h.response == Raised(env.lockError.value)
      && h.stages == [CheckSmsCode, LookupPhone, CheckLock(env.owner.value.userName)]
    ensures body.Some? && env.codeValid && env.owner.Some? && env.lockError.None? && env.signIn.Failure? ==>
      && h.response == Raised(env.signIn.error)
      && h.stages == [CheckSmsCode, LookupPhone, CheckLock(env.owner.value.userName), CheckCredentials]
    ensures h.response.Ok? <==> body.Some? && env.codeValid && env.owner.Some? && env.lockError.None? && env.signIn.Success?
    ensures h.response.Ok? ==>
      var u := env.signIn.value;
      && h.response.data == Issue(ClaimsOf(u, env.roleIds), env.now, env.ttl)
      && h.store == s.(perms := s.perms[PermKey(permPrefix, u.userId) := env.permissions])
      && h.stages == PhonePipeline(env.owner.value.userName, PermKey(permPrefix, u.userId))
    ensures !h.response.Ok? ==> h.store == s
  {
    if body.None? then Handled(s, Raised("Request parameter error"), [])
    else if !env.codeValid then Handled(s, Error(CustomError, "Incorrect SMS verification code"), [CheckSmsCode])
    else if env.owner.None? then Handled(s, Raised("This phone number does not exist"), [CheckSmsCode, LookupPhone])
    else
      SignIn(s, [CheckSmsCode, LookupPhone], env.owner.value.userName, env.lockError, env.signIn, env.roleIds,
             env.permissions, env.now, env.ttl, permPrefix)
  }

  /** A phone login followed by the same user's logout leaves no cached
      permission list for that user. */
  lemma PhoneLoginThenLogout(s: Store, phone: PhoneLoginBody, penv: PhoneEnv, permPrefix: string, name: string)
    requires penv.signIn.Success?
    ensures
      var u := penv.signIn.value;
      var s2 := LogOut(PhoneLogin(s, Some(phone), penv, permPrefix).store, u.userId, name, permPrefix).store;
      && PermKey(permPrefix, u.userId) !in s2.perms
      && (forall v :: v != u.userId ==>
            (PermKey(permPrefix, v) in s2.perms <==> PermKey(permPrefix, v) in s.perms))
  {
    var u := penv.signIn.value;
    forall v | v != u.userId
      ensures PermKey(permPrefix, v) != PermKey(permPrefix, u.userId)
    {
      KeysArePerUser(permPrefix, v, u.userId);
    }
  }

  /** Once past their guards, the phone and password logins of the same
      signed-in user leave the same cache behind and mint the same token. */
  lemma PhoneLoginMatchesLogin(s: Store, t: Table, body: LoginBody, env: LoginEnv,
                               phone: PhoneLoginBody, penv: PhoneEnv, permPrefix: string)
    requires penv.codeValid && penv.owner.Some? && penv.lockError.None? && penv.signIn.Success?
    requires (!CaptchaEnforced(t) || env.captchaValid) && env.lockError.None?
    requires env.signIn == penv.signIn && env.permissions == penv.permissions
    requires env.roleIds == penv.roleIds && env.now == penv.now && env.ttl == penv.ttl
    ensures Login(s, t, Some(body), env, permPrefix).store == PhoneLogin(s, Some(phone), penv, permPrefix).store
    ensures Login(s, t, Some(body), env, permPrefix).response == PhoneLogin(s, Some(phone), penv, permPrefix).response
  {
  }

  /** The posted registration form (`RegisterDto`), reduced to the captcha
      fields the handler reads itself. */
  datatype RegisterDto = RegisterDto(username: string, uuid: string, code: string)

  /** `Register` once the registration switch is on: the captcha gate,
      then the user service. */
  function RegisterPastSwitch(s: Store, enforced: bool, captchaValid: bool, registered: Result<User>): (h: Handled<User>)
    ensures h.store == s
    ensures |h.stages| >= 2 && h.stages[..2] == [ReadConfig(RegisterKey), ReadConfig(CaptchaKey)]
    ensures enforced && !captchaValid ==>
      && h.response == Error(CaptchaError, "Incorrect captcha")
      && h.stages == [ReadConfig(RegisterKey)] + CaptchaStages(true)
      && RegisterUser !in h.stages
    ensures (!enforced || captchaValid) && registered.Failure? ==> h.response == Raised(registered.error)
    ensures (!enforced || captchaValid) && registered.Success? && registered.value.userId <= 0 ==>
      h.response == Error(CustomError, "Registration failed, please contact the administrator")
    ensures !enforced || captchaValid ==>
      && h.stages == [ReadConfig(RegisterKey)] + CaptchaStages(enforced) + [RegisterUser]
      && !(h.response.Error? && h.response.code == CaptchaError)
      && (h.response.Ok? <==> registered.Success? && registered.value.userId > 0)
      && (h.response.Ok? ==> h.response.data == registered.value)
  {
    var captcha := [ReadConfig(RegisterKey)] + CaptchaStages(enforced);
    if enforced && !captchaValid then Handled(s, Error(CaptchaError, "Incorrect captcha"), captcha)
    else
      var stages := captcha + [RegisterUser];
      if registered.Failure? then Handled(s, Raised(registered.error), stages)
      else if registered.value.userId > 0 then Handled(s, Ok(registered.value), stages)
      else Handled(s, Error(CustomError, "Registration failed, please contact the administrator"), stages)
  }

  /** `Register`: refused unless registration is switched on, then the
      captcha exactly as for login, then the user service; the new user is
      returned only when it received a positive id. The cache is never
      touched. `registered` is what `sysUserService.Register` returns or
      throws. */
  function Register(s: Store, t: Table, dto: RegisterDto, captchaValid: bool, registered: Result<User>): (h: Handled<User>)
    ensures h.store == s
    ensures !RegisterEnabled(t) ==> h.response == Error(CustomError,
      "The registration feature is not enabled in the current system!") && h.stages == [ReadConfig(RegisterKey)]
    ensures RegisterEnabled(t) ==> |h.stages| >= 2 && h.stages[..2] == [ReadConfig(RegisterKey), ReadConfig(CaptchaKey)]
    ensures h.response.Error? && h.response.code == CaptchaError <==>
      RegisterEnabled(t) && CaptchaEnforced(t) && !captchaValid
    ensures RegisterUser in h.stages <==> RegisterEnabled(t) && (!CaptchaEnforced(t) || captchaValid)
    ensures h.response.Ok? <==> (RegisterEnabled(t) && (!CaptchaEnforced(t) || captchaValid)
      && registered.Success? && registered.value.userId > 0)
    ensures h.response.Ok? ==> h.response.data == registered.value
    ensures RegisterEnabled(t) && CaptchaEnforced(t) && !captchaValid ==>
      h.stages == [ReadConfig(RegisterKey)] + CaptchaStages(true)
    ensures RegisterEnabled(t) && (!CaptchaEnforced(t) || captchaValid) ==>
      && h.stages == [ReadConfig(RegisterKey)] + CaptchaStages(CaptchaEnforced(t)) + [RegisterUser]
      && (registered.Failure? ==> h.response == Raised(registered.error))
      && (registered.Success? && registered.value.userId <= 0 ==>
            h.response == Error(CustomError, "Registration failed, please contact the administrator"))
  {
    if !RegisterEnabled(t) then
      Handled(s, Error(CustomError, "The registration feature is not enabled in the current system!"), [ReadConfig(RegisterKey)])
    else RegisterPastSwitch(s, CaptchaEnforced(t), captchaValid, registered)
  }

  /** With registration open, `Register` passes the captcha gate exactly
      when `Login` does: it reaches the user service exactly when a login
      with the same captcha answer reaches the lockout check. */
  lemma RegisterCaptchaGateMatchesLogin(s: Store, t: Table, dto: RegisterDto, registered: Result<User>,
                                        body: LoginBody, env: LoginEnv, permPrefix: string)
    requires RegisterEnabled(t)
    ensures RegisterUser in Register(s, t, dto, env.captchaValid, registered).stages
      <==> CheckLock(body.username) in Login(s, t, Some(body), env, permPrefix).stages
  {
  }
}

=== FILE: qr_login.dfy ===
/** The QR-code cross-device login handshake of `SysLoginController`: a
    display device generates a record under a uuid and polls it; an already
    signed-in device confirms it, which stores a fresh token for the poller
    to collect. Each handler is one atomic step over the shared cache. */
module QrLogin {
  import opened Common
  import opened Api
  import opened Session

  /** The reply of `GenerateQrcode`. */
  datatype QrCode = QrCode(status: int, state: string, uuid: string, deviceId: string)

  /** The `token` field of a poll reply: `string.Empty` when no record was
      found, null when the record has no token entry (`TryGetValue` writes
      the default), or the stored token. */
  datatype PolledToken = EmptyText | Null | Jwt(token: Token)

  /** The reply of `VerifyScan`: -1 absent, 0 waiting, 2 confirmed. */
  datatype ScanStatus = ScanStatus(status: int, token: PolledToken)

  /** `GenerateQrcode(uuid, deviceId)`, with `state` the fresh Guid. The
      record is (over)written as pending; nothing else changes. */
  function GenerateQrcode(s: Store, uuid: string, deviceId: string, state: string): (r: (Store, Response<QrCode>))
    ensures uuid in r.0.scans && r.0.scans[uuid].state == Some(state)
    ensures !IsSuccess(r.0.scans[uuid]) && r.0.scans[uuid].token.None?
    ensures forall k :: k != uuid ==> (k in r.0.scans <==> k in s.scans)
    ensures forall k :: k != uuid && k in s.scans ==> r.0.scans[k] == s.scans[k]
    ensures r.0.perms == s.perms && r.0.flags == s.flags
    ensures r.1 == Ok(QrCode(1, state, uuid, deviceId))
  {
    (s.(scans := s.scans[uuid := Pending(state)]), Ok(QrCode(1, state, uuid, deviceId)))
  }

  /** The message of the `NullReferenceException` a null body raises. */
  const NullBody: string := "Object reference not set to an instance of an object."

  /** `VerifyScan`: the display device's poll of the posted uuid (`dto` is
      None for a null body, which throws when the handler reads its uuid).
      A confirmed record is handed out with status 2 and removed in the same
      step. */
  function VerifyScan(s: Store, dto: Option<string>): (r: (Store, Response<ScanStatus>))
    ensures dto.None? ==> r == (s, Raised(NullBody))
    ensures r.1.Ok? <==> dto.Some?
    ensures dto.Some? && dto.value !in s.scans ==> r.0 == s && r.1.data == ScanStatus(-1, EmptyText)
    ensures dto.Some? && dto.value in s.scans && !IsSuccess(s.scans[dto.value]) ==>
      r.0 == s && r.1.data.status == 0
    ensures dto.Some? && dto.value in s.scans && IsSuccess(s.scans[dto.value]) ==>
      var uuid := dto.value;
      && r.1.data.status == 2
      && uuid !in r.0.scans
      && (forall k :: k != uuid && k in s.scans ==> k in r.0.scans && r.0.scans[k] == s.scans[k])
      && r.0.scans.Keys <= s.scans.Keys
    ensures dto.Some? && dto.value in s.scans ==>
      var rec := s.scans[dto.value];
      r.1.data.token == (if rec.token.Some? then Jwt(rec.token.value) else Null)
    ensures r.0.perms == s.perms && r.0.flags == s.flags
  {
    if dto.None? then (s, Raised(NullBody))
    else if dto.value !in s.scans then (s, Ok(ScanStatus(-1, EmptyText)))
    else
      var rec := s.scans[dto.value];
      var token := if rec.token.Some? then Jwt(rec.token.value) else Null;
      if IsSuccess(rec) then (s.(scans := s.scans - {dto.value}), Ok(ScanStatus(2, token)))
      else (s, Ok(ScanStatus(0, token)))
  }

  /** `ScanLogin`: the signed-in device confirms `uuid`. `dto` is the posted
      uuid (None for a null body), `scanner` the caller's claims, and
      `lockError` the exception `CheckLockUser` throws, if any. */
  function ScanLogin(s: Store, dto: Option<string>, scanner: Claims, lockError: Option<string>, now: int, ttl: nat)
    : (r: (Store, Response<int>))
    ensures dto.None? ==> r == (s, Error(CustomError, "Scan failed"))
    ensures dto.Some? && lockError.Some? ==> r == (s, Raised(lockError.value))
    ensures dto.Some? && lockError.None? && dto.value !in s.scans ==>
      r == (s, Error(Fail, "QR code has expired"))
    ensures r.1.Ok? <==> dto.Some? && lockError.None? && dto.value in s.scans
    ensures r.1.Ok? ==>
      && r.1.data == 1
      && r.0.scans == s.scans[dto.value := Confirmed(Issue(scanner, now, ttl))]
      && r.0.perms == s.perms && r.0.flags == s.flags
  {
    if dto.None? then (s, Error(CustomError, "Scan failed"))
    else if lockError.Some? then (s, Raised(lockError.value))
    else if dto.value in s.scans then
      (s.(scans := s.scans[dto.value := Confirmed(Issue(scanner, now, ttl))]), Ok(1))
    else (s, Error(Fail, "QR code has expired"))
  }

  /** A freshly generated handshake polls as waiting, with a null token. */
  lemma GenerateThenPollIsPending(s: Store, uuid: string, deviceId: string, state: string)
    ensures VerifyScan(GenerateQrcode(s, uuid, deviceId, state).0, Some(uuid)).1 == Ok(ScanStatus(0, Null))
  {
  }

  /** The cache after `n` consecutive polls of `uuid`. */
  function Polls(s: Store, uuid: string, n: nat): Store
  {
    if n == 0 then s else VerifyScan(Polls(s, uuid, n - 1), Some(uuid)).0
  }

  /** Polling a waiting handshake leaves the cache as it was, so every
      further poll keeps answering 0. */
  lemma {:induction false} RepeatedPollsStayPending(s: Store, uuid: string, n: nat)
    requires uuid in s.scans && !IsSuccess(s.scans[uuid])
    ensures Polls(s, uuid, n) == s
    ensures VerifyScan(Polls(s, uuid, n), Some(uuid)).1.data.status == 0
  {
    if n > 0 {
      RepeatedPollsStayPending(s, uuid, n - 1);
    }
  }

  /** The full happy path: generate, poll (0), confirm (1), poll (2 with the
      minted token), poll again (-1, the record is gone). */
  lemma HandshakeScenario(s: Store, uuid: string, deviceId: string, state: string, scanner: Claims, now: int, ttl: nat)
    ensures
      var s1 := GenerateQrcode(s, uuid, deviceId, state).0;
      var (s2, p1) := VerifyScan(s1, Some(uuid));
      var (s3, c) := ScanLogin(s2, Some(uuid), scanner, None, now, ttl);
      var (s4, p2) := VerifyScan(s3, Some(uuid));
      var (s5, p3) := VerifyScan(s4, Some(uuid));
      && p1 == Ok(ScanStatus(0, Null))
      && c == Ok(1)
      && p2 == Ok(ScanStatus(2, Jwt(Issue(scanner, now, ttl))))
      && p3 == Ok(ScanStatus(-1, EmptyText))
      && s5.perms == s.perms && s5.flags == s.flags
  {
  }

  /** A handshake that expired before confirmation can no longer be
      confirmed, and the poller then sees -1. */
  lemma ExpiredHandshakeIsGone(s: Store, uuid: string, scanner: Claims, now: int, ttl: nat)
    ensures
      var s1 := Evict(s, Scans, uuid);
      && ScanLogin(s1, Some(uuid), scanner, None, now, ttl) == (s1, Error(Fail, "QR code has expired"))
      && VerifyScan(s1, Some(uuid)) == (s1, Ok(ScanStatus(-1, EmptyText)))
  {
  }

  /** One event in the life of the handshake cache: a request to one of the
      three handlers, or the expiry of a record. */
  datatype QrEvent =
    | Generate(uuid: string, deviceId: string, state: string)
    | Poll(dto: Option<string>)
    | Confirm(dto: Option<string>, scanner: Claims, lockError: Option<string>, now: int, ttl: nat)
    | Expire(uuid: string)

  /** The cache after one event. */
  function Step(s: Store, e: QrEvent): Store
  {
    match e
    case Generate(uuid, deviceId, state) => GenerateQrcode(s, uuid, deviceId, state).0
    case Poll(dto) => VerifyScan(s, dto).0
    case Confirm(dto, scanner, lockError, now, ttl) => ScanLogin(s, dto, scanner, lockError, now, ttl).0
    case Expire(uuid) => Evict(s, Scans, uuid)
  }

  /** 1 when a poll of `u` in store `s` would hand out a token. */
  function Ready(s: Store, u: string): nat
  {
    if u in s.scans && IsSuccess(s.scans[u]) then 1 else 0
  }

  /** The number of polls of `u` in `evs` that answer status 2. */
  function Delivered(s: Store, evs: seq<QrEvent>, u: string): nat
    decreases |evs|
  {
    if evs == [] then 0
    else
      var hit := if evs[0] == Poll(Some(u)) && VerifyScan(s, Some(u)).1.data.status == 2 then 1 else 0;
      hit + Delivered(Step(s, evs[0]), evs[1..], u)
  }

  /** The number of confirmations of `u` in `evs` that succeed. */
  function Confirmations(s: Store, evs: seq<QrEvent>, u: string): nat
    decreases |evs|
  {
    if evs == [] then 0
    else
      var e := evs[0];
      var hit := if e.Confirm? && e.dto == Some(u) && ScanLogin(s, e.dto, e.scanner, e.lockError, e.now, e.ttl).1.Ok?
        then 1 else 0;
      hit + Confirmations(Step(s, e), evs[1..], u)
  }

  /** Whatever the interleaving of handlers and expiries, the polls of a
      uuid hand out a token no more often than the handshake was confirmed
      (plus one for a record already confirmed at the start): each minted
      token is delivered at most once. */
  lemma {:induction false} DeliveryAtMostOnce(s: Store, evs: seq<QrEvent>, u: string)
    ensures Delivered(s, evs, u) <= Confirmations(s, evs, u) + Ready(s, u)
    decreases |evs|
  {
    if evs != [] {
      var e := evs[0];
      var s' := Step(s, e);
      DeliveryAtMostOnce(s', evs[1..], u);
      match e
      case Generate(uuid, deviceId, state) =>
        assert Ready(s', u) <= Ready(s, u);
      case Poll(dto) =>
        if dto == Some(u) && Ready(s, u) == 1 {
          assert Ready(s', u) == 0;
        } else {
          assert Ready(s', u) == Ready(s, u);
        }
      case Confirm(dto, scanner, lockError, now, ttl) =>
        if dto == Some(u) && ScanLogin(s, dto, scanner, lockError, now, ttl).1.Ok? {
          assert Ready(s', u) == 1;
        } else {
          assert Ready(s', u) == Ready(s, u);
        }
      case Expire(uuid) =>
        assert Ready(s', u) <= Ready(s, u);
    }
  }

  /** Starting from a cache with no confirmed record for `u`, tokens are
      delivered at most as often as they were minted for `u`. */
  lemma DeliveryBoundedByConfirmations(s: Store, evs: seq<QrEvent>, u: string)
    requires u !in s.scans || !IsSuccess(s.scans[u])
    ensures Delivered(s, evs, u) <= Confirmations(s, evs, u)
  {
    DeliveryAtMostOnce(s, evs, u);
  }
}

=== FILE: session.dfy ===
/** Session tokens and the shared cache the handlers read and write. */
module Session {
  import opened Common
  import opened Text

  /** The claims a token carries (`TokenModel`); `expireTime` in seconds. */
  datatype Claims = Claims(userId: int, userName: string, roleIds: seq<int>, expireTime: int)

  /** A signed token. Signing is opaque to the model: a token is identified
      with the claims it carries. */
  datatype Token = Signed(claims: Claims)

  /** `JwtUtil.GenerateJwtToken(JwtUtil.AddClaims(user))` at time `now`: the
      same user and roles, expiring `ttl` seconds later. */
  function Issue(user: Claims, now: int, ttl: nat): (t: Token)
    ensures t.claims.userId == user.userId && t.claims.userName == user.userName
    ensures t.claims.roleIds == user.roleIds
    ensures t.claims.expireTime - now == ttl
  {
    Signed(user.(expireTime := now + ttl))
  }

  /** One QR handshake record, the dictionary stored under the uuid:
      `{state}` while pending, `{status, token}` once confirmed. */
  datatype ScanRecord = ScanRecord(state: Option<string>, status: Option<string>, token: Option<Token>)

  /** The record `GenerateQrcode` writes. */
  function Pending(state: string): ScanRecord
  {
    ScanRecord(Some(state), None, None)
  }

  /** The record `ScanLogin` writes; it replaces the pending one whole. */
  function Confirmed(t: Token): ScanRecord
  {
    ScanRecord(None, Some("success"), Some(t))
  }

  /** Whether a record is one a poll hands out: its status is "success". */
  predicate IsSuccess(r: ScanRecord)
  {
    r.status == Some("success")
  }

  /** The shared cache: QR handshake records by uuid, cached permission
      lists by `UserPermKEY + userId`, and the plain `CacheHelper` entries
      (the refresh sentinels). */
  datatype Store = Store(
    scans: map<string, ScanRecord>,
    perms: map<string, seq<string>>,
    flags: map<string, string>)

  /** The cache keys of one permission list: `UserPermKEY + userId`. The
      prefix is a configuration constant, so it is a parameter here. */
  function PermKey(prefix: string, userId: int): string
  {
    prefix + IntToDecimal(userId)
  }

  /** The refresh sentinel of one user: `"token_" + UserId`. */
  function SentinelKey(userId: int): string
  {
    "token_" + IntToDecimal(userId)
  }

  /** Distinct users never share a permission key or a sentinel. */
  lemma KeysArePerUser(prefix: string, a: int, b: int)
    requires a != b
    ensures PermKey(prefix, a) != PermKey(prefix, b)
    ensures SentinelKey(a) != SentinelKey(b)
  {
    if PermKey(prefix, a) == PermKey(prefix, b) {
      PrefixedKeyInjective(prefix, a, b);
    }
    if SentinelKey(a) == SentinelKey(b) {
      PrefixedKeyInjective("token_", a, b);
    }
  }

  /** The three regions of the cache. */
  datatype Region = Scans | Perms | Flags

  /** The environment step: a cache entry reaches its time-to-live and is
      evicted. Nothing else in the cache changes. */
  function Evict(s: Store, region: Region, key: string): (s': Store)
    ensures region == Scans ==> key !in s'.scans && s'.perms == s.perms && s'.flags == s.flags
    ensures region == Perms ==> key !in s'.perms && s'.scans == s.scans && s'.flags == s.flags
    ensures region == Flags ==> key !in s'.flags && s'.scans == s.scans && s'.perms == s.perms
    ensures forall k :: k != key && k in s.scans ==> k in s'.scans && s'.scans[k] == s.scans[k]
    ensures forall k :: k != key && k in s.perms ==> k in s'.perms && s'.perms[k] == s.perms[k]
    ensures forall k :: k != key && k in s.flags ==> k in s'.flags && s'.flags[k] == s.flags[k]
    ensures s'.scans.Keys <= s.scans.Keys && s'.perms.Keys <= s.perms.Keys && s'.flags.Keys <= s.flags.Keys
  {
    match region
    case Scans => s.(scans := s.scans - {key})
    case Perms => s.(perms := s.perms - {key})
    case Flags => s.(flags := s.flags - {key})
  }
}

=== FILE: swagger.dfy ===
/** The two pieces of decision logic in `SwaggerExtension`: the server URL
    written into every served document, and which API goes into which
    document. */
module Swagger {
  import opened Common
  import opened Text

  /** The parts of the HTTP request the pre-serialize filter reads. A
      missing Referer header reads as the empty string. */
  datatype HttpRequest = HttpRequest(scheme: string, host: string, referer: string)

  datatype Server = Server(url: string)

  datatype OpenApiDoc = OpenApiDoc(name: string, servers: seq<Server>)

  /** The server URL for a request; `proxy` is `GlobalConstant.DevApiProxy`.
      Without the proxy path in the Referer it is the request's own origin.
      With it, it is the Referer cut just before the last character of the
      first occurrence of the proxy path. An empty proxy path makes the
      source slice to -1 and throw; that is the failure here. */
  function ServerUrl(req: HttpRequest, proxy: string): (r: Result<string>)
    ensures !Contains(req.referer, proxy) ==> r == Success(req.scheme + "://" + req.host)
    ensures r.Failure? <==> proxy == ""
    ensures Contains(req.referer, proxy) && proxy != "" ==>
      var u := r.value;
      && u <= req.referer
      && OccursAt(req.referer, proxy, |u| + 1 - |proxy|)
      && (forall j :: 0 <= j < |u| + 1 - |proxy| ==> !OccursAt(req.referer, proxy, j))
      && u[|u| + 1 - |proxy|..] == proxy[..|proxy| - 1]
  {
    EmptyOccursFirstAtZero(req.referer);
    if !Contains(req.referer, proxy) then Success(req.scheme + "://" + req.host)
    else
      ContainsIffIndexOf(req.referer, proxy);
      var stop := IndexOf(req.referer, proxy).value + |proxy| - 1;
      if stop < 0 then Failure("ArgumentOutOfRangeException")
      else
        var u := req.referer[..stop];
        assert u[|u| + 1 - |proxy|..] == req.referer[stop + 1 - |proxy|..stop];
        Success(u)
  }

  /** The pre-serialize filter: the document's server list becomes exactly
      one entry, the computed URL. */
  function PreSerialize(doc: OpenApiDoc, req: HttpRequest, proxy: string): (r: Result<OpenApiDoc>)
    ensures r.Success? <==> proxy != ""
    ensures r.Success? ==> r.value.name == doc.name && |r.value.servers| == 1
    ensures r.Success? ==> r.value.servers == [Server(ServerUrl(req, proxy).value)]
    ensures r.Success? && !Contains(req.referer, proxy) ==>
      r.value.servers[0].url == req.scheme + "://" + req.host
    ensures r.Success? && Contains(req.referer, proxy) ==> r.value.servers[0].url <= req.referer
  {
    match ServerUrl(req, proxy)
    case Failure(e) => Failure(e)
    case Success(url) => Success(doc.(servers := [Server(url)]))
  }

  /** The parts of an API description the inclusion rule reads. */
  datatype ApiDescription = ApiDescription(groupName: Option<string>)

  /** `string.IsNullOrEmpty(apiDescription.GroupName)`. */
  predicate Ungrouped(api: ApiDescription)
  {
    api.groupName.None? || api.groupName.value == ""
  }

  /** `DocInclusionPredicate`: "v1" collects the ungrouped APIs; any other
      document collects the APIs whose group is its name. */
  predicate Included(docName: string, api: ApiDescription)
  {
    if docName == "v1" then Ungrouped(api) else api.groupName == Some(docName)
  }

  /** The documents registered with `SwaggerDoc`. */
  const DeclaredDocs: seq<string> := ["sys", "article", "v1"]

  /** The documents of `docs` that include `api`, in order. */
  function DocsContaining(docs: seq<string>, api: ApiDescription): (r: seq<string>)
    ensures forall d :: d in r <==> d in docs && Included(d, api)
    ensures |r| <= |docs|
  {
    if docs == [] then []
    else (if Included(docs[0], api) then [docs[0]] else []) + DocsContaining(docs[1..], api)
  }

  /** Every API of group "sys" or "article" lands in exactly that document,
      every ungrouped API in "v1" alone, and an API of any other group
      (including one literally named "v1") in none. */
  lemma DocumentOfEachApi(api: ApiDescription)
    ensures Ungrouped(api) ==> DocsContaining(DeclaredDocs, api) == ["v1"]
    ensures api.groupName == Some("sys") ==> DocsContaining(DeclaredDocs, api) == ["sys"]
    ensures api.groupName == Some("article") ==> DocsContaining(DeclaredDocs, api) == ["article"]
    ensures !Ungrouped(api) && api.groupName.value !in {"sys", "article"} ==> DocsContaining(DeclaredDocs, api) == []
  {
  }

  /** Hence an API is in exactly one declared document if and only if it is
      ungrouped or grouped under "sys" or "article". */
  lemma ExactlyOneDocument(api: ApiDescription)
    ensures |DocsContaining(DeclaredDocs, api)| == 1 <==>
      Ungrouped(api) || api.groupName == Some("sys") || api.groupName == Some("article")
  {
    DocumentOfEachApi(api);
  }
}

=== FILE: text.dfy ===
/** The string operations the core relies on: decimal rendering of integer
    ids (used to build per-user cache keys) and ordinal substring search. */
module Text {
  import opened Common

  /** The ASCII digit for `d`. */
  function DigitChar(d: nat): (c: char)
    requires d < 10
    ensures '0' <= c <= '9'
    ensures c as int - '0' as int == d
  {
    ('0' as int + d) as char
  }

  /** Decimal rendering of a natural number, most significant digit first,
      with no leading zeros. */
  function NatToDecimal(n: nat): (s: string)
    ensures 1 <= |s|
    ensures forall i :: 0 <= i < |s| ==> '0' <= s[i] <= '9'
    ensures n < 10 <==> |s| == 1
    decreases n
  {
    if n < 10 then [DigitChar(n)] else NatToDecimal(n / 10) + [DigitChar(n % 10)]
  }

  /** What `Int64.ToString()` produces: a leading minus sign for negative
      values, then the decimal digits of the magnitude. */
  function IntToDecimal(n: int): (s: string)
    ensures 1 <= |s|
    ensures s[0] == '-' <==> n < 0
  {
    if n < 0 then "-" + NatToDecimal(-n) else NatToDecimal(n)
  }

  /** Distinct naturals render differently. */
  lemma {:induction false} NatToDecimalInjective(a: nat, b: nat)
    requires NatToDecimal(a) == NatToDecimal(b)
    ensures a == b
    decreases a
  {
    var s := NatToDecimal(a);
    if a >= 10 && b >= 10 {
      assert s == NatToDecimal(a / 10) + [DigitChar(a % 10)];
      assert s == NatToDecimal(b / 10) + [DigitChar(b % 10)];
      assert s[|s| - 1] == DigitChar(a % 10) == DigitChar(b % 10);
      assert NatToDecimal(a / 10) == s[..|s| - 1] == NatToDecimal(b / 10);
      NatToDecimalInjective(a / 10, b / 10);
    } else if a < 10 && b < 10 {
      assert s[0] == DigitChar(a) && s[0] == DigitChar(b);
    }
  }

  /** Distinct integers render differently, so a key built from an id
      identifies that id. */
  lemma IntToDecimalInjective(a: int, b: int)
    requires IntToDecimal(a) == IntToDecimal(b)
    ensures a == b
  {
    var s := IntToDecimal(a);
    if a < 0 && b < 0 {
      assert NatToDecimal(-a) == s[1..] == NatToDecimal(-b);
      NatToDecimalInjective(-a, -b);
    } else if a >= 0 && b >= 0 {
      NatToDecimalInjective(a, b);
    }
  }

  /** `prefix + id` keys of two ids coincide only when the ids do. */
  lemma PrefixedKeyInjective(prefix: string, a: int, b: int)
    requires prefix + IntToDecimal(a) == prefix + IntToDecimal(b)
    ensures a == b
  {
    assert (prefix + IntToDecimal(a))[|prefix|..] == IntToDecimal(a);
    assert (prefix + IntToDecimal(b))[|prefix|..] == IntToDecimal(b);
    IntToDecimalInjective(a, b);
  }

  /** `p` occurs in `s` starting at position `i` (ordinal comparison). */
  predicate OccursAt(s: string, p: string, i: int)
  {
    0 <= i && i + |p| <= |s| && s[i..i + |p|] == p
  }

  /** `String.Contains`: some position of `s` starts an occurrence of `p`. */
  predicate Contains(s: string, p: string)
  {
    exists i :: 0 <= i <= |s| - |p| && OccursAt(s, p, i)
  }

  /** First occurrence of `p` in `s` at or after `from`. */
  function IndexOfFrom(s: string, p: string, from: nat): (r: Option<nat>)
    ensures r.Some? ==> from <= r.value && OccursAt(s, p, r.value)
    ensures r.Some? ==> forall j :: from <= j < r.value ==> !OccursAt(s, p, j)
    ensures r.None? ==> forall j :: from <= j ==> !OccursAt(s, p, j)
    decreases |s| - from
  {
    if from + |p| > |s| then None
    else if s[from..from + |p|] == p then Some(from)
    else IndexOfFrom(s, p, from + 1)
  }

  /** `String.IndexOf`: the first occurrence of `p` in `s`, or None where C#
      answers -1. */
  function IndexOf(s: string, p: string): (r: Option<nat>)
    ensures r.Some? ==> OccursAt(s, p, r.value)
    ensures r.Some? ==> forall j :: 0 <= j < r.value ==> !OccursAt(s, p, j)
    ensures r.None? ==> forall j :: !OccursAt(s, p, j)
  {
    IndexOfFrom(s, p, 0)
  }

  /** `Contains` and `IndexOf` agree on whether `p` occurs in `s`. */
  lemma ContainsIffIndexOf(s: string, p: string)
    ensures Contains(s, p) <==> IndexOf(s, p).Some?
  {
  }

  /** The empty string occurs in every string, at position 0. */
  lemma EmptyOccursFirstAtZero(s: string)
    ensures Contains(s, "") && IndexOf(s, "") == Some(0)
  {
    assert OccursAt(s, "", 0);
  }
}

=== FILE: verify.dfy ===
/** `VerifyAttribute.OnAuthorization`, the per-request filter: an anonymous
    bypass, then a sliding token refresh gated by a per-user sentinel in the
    cache, then the deny decision. */
module Verify {
  import opened Common
  import opened Api
  import opened Session
  import QrLogin

  /** A refresh is due when fewer than this many seconds of the token's
      lifetime remain (`ts.TotalMinutes < 5`). */
  const RefreshWindow: int := 300

  /** What the filter reads from the request: whether the action carries
      `AllowAnonymous`, the token's claims (null when there is no usable
      token), whether the identity is authenticated, the `os` header and
      the request path. */
  datatype AuthRequest = AuthRequest(
    allowAnonymous: bool,
    loginUser: Option<Claims>,
    isAuthenticated: bool,
    os: Option<string>,
    path: string)

  /** A response header value: plain text, or a token. */
  datatype HeaderValue = Text(text: string) | Jwt(token: Token)

  datatype Header = Header(name: string, value: HeaderValue)

  /** The filter's effect: the new cache, the result it sets (the DENY
      message) if any, and the response headers it adds, in order. */
  datatype AuthOutcome = AuthOutcome(store: Store, denied: Option<string>, headers: seq<Header>)

  /** Whether this request mints a replacement token. */
  predicate RefreshDue(s: Store, req: AuthRequest, now: int)
  {
    && !req.allowAnonymous
    && req.loginUser.Some?
    && SentinelKey(req.loginUser.value.userId) !in s.flags
    && req.loginUser.value.expireTime - now < RefreshWindow
  }

  /** The X-Refresh-Token header the filter adds, if any. */
  predicate Refreshed(o: AuthOutcome)
  {
    exists i :: 0 <= i < |o.headers| && o.headers[i].name == "X-Refresh-Token"
  }

  /** `OnAuthorization` at time `now`; `ttl` is the lifetime of a minted
      token. */
  function OnAuthorization(s: Store, req: AuthRequest, now: int, ttl: nat): (o: AuthOutcome)
    ensures req.allowAnonymous ==> o == AuthOutcome(s, None, [])
    ensures Refreshed(o) <==> RefreshDue(s, req, now)
    ensures !RefreshDue(s, req, now) ==> o.store == s && o.headers == []
    ensures RefreshDue(s, req, now) ==>
      var ck := SentinelKey(req.loginUser.value.userId);
      o.store == s.(flags := s.flags[ck := ck])
    ensures RefreshDue(s, req, now) ==>
      o.headers == (if req.os.Some? then [Header("Access-Control-Expose-Headers", Text("X-Refresh-Token"))] else [])
                   + [Header("X-Refresh-Token", Jwt(Issue(req.loginUser.value, now, ttl)))]
    ensures Refreshed(o) ==>
      && SentinelKey(req.loginUser.value.userId) in o.store.flags
      && Header("X-Refresh-Token", Jwt(Issue(req.loginUser.value, now, ttl))) in o.headers
    ensures (exists i :: 0 <= i < |o.headers| && o.headers[i].name == "Access-Control-Expose-Headers")
      <==> RefreshDue(s, req, now) && req.os.Some?
    ensures o.denied.Some? <==> !req.allowAnonymous && (req.loginUser.None? || !req.isAuthenticated)
    ensures o.store.scans == s.scans && o.store.perms == s.perms
    ensures s.flags.Keys <= o.store.flags.Keys
    ensures forall k :: k in s.flags ==> o.store.flags[k] == s.flags[k]
    ensures forall k :: k in o.store.flags && k !in s.flags ==>
      req.loginUser.Some? && k == SentinelKey(req.loginUser.value.userId)
  {
    if req.allowAnonymous then AuthOutcome(s, None, [])
    else
      var (store, headers) :=
        if RefreshDue(s, req, now) then
          var user := req.loginUser.value;
          var ck := SentinelKey(user.userId);
          var expose := if req.os.Some? then [Header("Access-Control-Expose-Headers", Text("X-Refresh-Token"))] else [];
          var hs := expose + [Header("X-Refresh-Token", Jwt(Issue(user, now, ttl)))];
          assert hs[|hs| - 1].name == "X-Refresh-Token";
          assert req.os.Some? ==> hs[0].name == "Access-Control-Expose-Headers";
          (s.(flags := s.flags[ck := ck]), hs)
        else (s, []);
      var denied :=
        if req.loginUser.None? || !req.isAuthenticated
        then Some("Failed to access [" + req.path + "], unable to access system resources")
        else None;
      AuthOutcome(store, denied, headers)
  }

  /** The sentinel the first refresh sets stops a second request of the
      same user from refreshing, whatever its timing. */
  lemma RefreshNotRepeated(s: Store, r1: AuthRequest, r2: AuthRequest, t1: int, t2: int, ttl: nat)
    requires r1.loginUser.Some? && r2.loginUser.Some?
    requires r1.loginUser.value.userId == r2.loginUser.value.userId
    requires Refreshed(OnAuthorization(s, r1, t1, ttl))
    ensures !Refreshed(OnAuthorization(OnAuthorization(s, r1, t1, ttl).store, r2, t2, ttl))
  {
  }

  /** The sentinel is per user: a request of user A never changes whether
      user B's next request refreshes. */
  lemma SentinelIsPerUser(s: Store, a: AuthRequest, b: AuthRequest, ta: int, tb: int, ttl: nat)
    requires a.loginUser.Some? && b.loginUser.Some?
    requires a.loginUser.value.userId != b.loginUser.value.userId
    ensures Refreshed(OnAuthorization(OnAuthorization(s, a, ta, ttl).store, b, tb, ttl))
      <==> Refreshed(OnAuthorization(s, b, tb, ttl))
  {
    KeysArePerUser("", a.loginUser.value.userId, b.loginUser.value.userId);
  }

  /** A refresh alone never denies: with a user and an authenticated
      identity the request goes through, refreshed or not. */
  lemma RefreshNeverDenies(s: Store, req: AuthRequest, now: int, ttl: nat)
    requires req.loginUser.Some? && req.isAuthenticated
    ensures OnAuthorization(s, req, now, ttl).denied.None?
  {
  }

  /** One event seen by the filter: a request, or the eviction of a cache
      entry by its time-to-live. */
  datatype AuthEvent = Request(req: AuthRequest, now: int, ttl: nat) | Expiry(key: string)

  /** The cache after one event. */
  function AuthStep(s: Store, e: AuthEvent): Store
  {
    match e
    case Request(req, now, ttl) => OnAuthorization(s, req, now, ttl).store
    case Expiry(key) => Evict(s, Flags, key)
  }

  /** How many requests of user `u` in `evs` mint a replacement token. */
  function Refreshes(s: Store, evs: seq<AuthEvent>, u: int): nat
    decreases |evs|
  {
    if evs == [] then 0
    else
      var e := evs[0];
      var hit := if e.Request? && e.req.loginUser.Some? && e.req.loginUser.value.userId == u
        && Refreshed(OnAuthorization(s, e.req, e.now, e.ttl)) then 1 else 0;
      hit + Refreshes(AuthStep(s, e), evs[1..], u)
  }

  /** As long as user `u`'s sentinel is not evicted, any sequence of
      requests of any users mints at most one token for `u`, and none at
      all if the sentinel is already set. */
  lemma {:induction false} AtMostOneRefreshPerWindow(s: Store, evs: seq<AuthEvent>, u: int)
    requires forall i :: 0 <= i < |evs| ==> evs[i] != Expiry(SentinelKey(u))
    ensures Refreshes(s, evs, u) + (if SentinelKey(u) in s.flags then 1 else 0) <= 1
    decreases |evs|
  {
    if evs != [] {
      var e := evs[0];
      var s' := AuthStep(s, e);
      assert forall i :: 0 <= i < |evs[1..]| ==> evs[1..][i] == evs[i + 1];
      AtMostOneRefreshPerWindow(s', evs[1..], u);
      if SentinelKey(u) in s.flags {
        assert SentinelKey(u) in s'.flags;
      }
      if e.Request? && e.req.loginUser.Some? && e.req.loginUser.value.userId == u
        && Refreshed(OnAuthorization(s, e.req, e.now, e.ttl)) {
        assert SentinelKey(u) in s'.flags;
      }
    }
  }

  /** The confirming step of the QR handshake behind `[Verify]`: the filter
      runs first and a denial stops the request before `ScanLogin`. The
      caller's claims are the scanner's identity. */
  function ScanLoginEndpoint(s: Store, req: AuthRequest, dto: Option<string>, lockError: Option<string>, now: int, ttl: nat)
    : (r: (Store, Response<int>, seq<Header>))
    requires !req.allowAnonymous
    ensures req.loginUser.None? || !req.isAuthenticated ==>
      r.1.Error? && r.1.code == Deny && r.0.scans == s.scans
    ensures r.1.Ok? ==> (req.loginUser.Some? && req.isAuthenticated && dto.Some? && dto.value in r.0.scans
      && r.0.scans[dto.value] == Confirmed(Issue(req.loginUser.value, now, ttl)))
    ensures (r.1.Error? && r.1.code == Deny) <==> req.loginUser.None? || !req.isAuthenticated
    ensures req.loginUser.Some? && req.isAuthenticated ==>
      var o := OnAuthorization(s, req, now, ttl);
      (r.0, r.1) == QrLogin.ScanLogin(o.store, dto, req.loginUser.value, lockError, now, ttl) && r.2 == o.headers
  {
    var o := OnAuthorization(s, req, now, ttl);
    if o.denied.Some? then (o.store, Error(Deny, o.denied.value), o.headers)
    else
      var (s', resp) := QrLogin.ScanLogin(o.store, dto, req.loginUser.value, lockError, now, ttl);
      (s', resp, o.headers)
  }

  /** Any signed-in, unlocked user can confirm any live handshake: the
      confirmation is bound to the uuid alone, not to the device that
      displayed it. */
  lemma AnySignedInUserCanConfirm(s: Store, req: AuthRequest, uuid: string, now: int, ttl: nat)
    requires !req.allowAnonymous && req.loginUser.Some? && req.isAuthenticated
    requires uuid in s.scans
    ensures ScanLoginEndpoint(s, req, Some(uuid), None, now, ttl).1 == Ok(1)
  {
  }
}
